=== FILE: README.md ===
# SNOW automation — a Dafny model of the PSP reconciliation core

`SNOW_automation.py` fills in a project security plan (PSP). It reads one
worksheet per risk (`R01`, `R02`, …) from the PSP workbook. Each risk sheet
holds the risk's identification and gravity cells, plus two sub-tables: the
recommendations and the security measures that answer the risk.

The script merges those sub-tables into two global tables. An element whose
description was already seen is only linked to the new risk. A new description
gets the next identifier, `REC01`, `REC02`, … or `SM01`, `SM02`, ….

The script then writes the three synthesis worksheets (action plan, applied
measures, risk analysis). In the PowerPoint deck it duplicates the latest
risk slide once fewer than there are risks, so there is one risk slide per risk
(one if there are none). Recommendation id cells are always bold; their font
colour and the fill of the gravity cells follow the priority and gravity labels.

This project models that core as pure Dafny:

| file | models |
|---|---|
| `Wrappers.dfy` | `Option`, standing for Python's `None` |
| `Decimal.dfy` | `str(n)` and `zfill(2)` on identifiers |
| `Sheets.dfy` | a worksheet as a finite map from (row, column) to text; an absent key is an empty cell |
| `Entities.dfy` | `Element` / `Recommendation` / `SecurityMeasure` / `Risk` and their association methods |
| `Extraction.dfy` | `check_new`, `get_index`, `get_elems_from_RXX`, `reco_from_elem`, `sm_from_elem`, `get_PSP_risks_inf` |
| `WorkbookWriter.dfy` | `clean_excel_column`, `clean_excel_table`, `update_excel_file` |
| `Taxonomy.dfy` | `set_color_cell`, `set_font_cell` and the colour constants |
| `Deck.dfy` | `add_rows`, `clean_table`, the slide duplication of `update_ppt_file`, and what `update_RXX_slide` shows |

Design choices:

- Risks are referred to by their id, which is the sheet name. Sheet names are
  unique, so "is associated with this risk object" becomes "holds this id".
- An element's description is `Option<string>`: the row-100 quirk of
  `get_index` can place an empty cell inside the sub-table range, so Python
  `None` can end up as a description.
- Every sub-table invariant is stated once, in `Extraction.WellFormed`:
  - dense, zero-padded ids;
  - pairwise-distinct descriptions;
  - at least one linked risk per element;
  - one kind per table.

Several behaviours of the code may surprise a reader. The model keeps each
one as written:

- The sheet filter `re.match("R\d{2}", name)` is a prefix match. `R123` and
  `R01 old` are risk sheets too, not only names with exactly two digits.
- `get_index` has no row limit. Row 100 is never taken as the header or as the
  terminating empty row; the scan runs past it, and without a header the
  search never ends.
- `add_rows` calls `Rows.Add(2)`, which inserts one row at position 2. The
  argument is a position, not a count of rows.
- An element's risks form a list, not a set. A description repeated within one
  risk sheet links that risk twice, and the id then appears twice in
  "R01, R01".
- `set_color_cell` fills for "Facultatif" but not for "Facultative", while
  `set_font_cell` colours "Facultative" but not "Facultatif". The model keeps
  both behaviours as written; `Taxonomy.TaxonomyAsymmetries` states them.

One comment and the code it documents disagree. The comment on
`get_associated_risk` (line 70) shows the risk list as "R0X,ROY,R0Z", but the
code joins the ids with ", " (line 77). The model follows the code, so
`Entities.AssociatedRiskString` gives "R01, R02".

## Model

| member | source | states |
|---|---|---|
| Decimal.DecimalDigits | SNOW_automation.py:235 | `str(n)` is a non-empty digit string with no leading zero except for 0 itself; it has one digit exactly when n < 10 and at most two below 100 |
| Decimal.DecimalRoundTrip | SNOW_automation.py:235 | reading back the decimal text of n gives n |
| Decimal.LeadingDigitPositive | SNOW_automation.py:235 | a digit string that does not start with '0' denotes a positive number |
| Decimal.DecimalDigitsCanonical | SNOW_automation.py:235 | every digit string without a leading zero (or "0" itself) is `str` of its value, so `str(n)` is the unique such form of n |
| Decimal.ZFill2 | SNOW_automation.py:235 | `str(n).zfill(2)` is all digits, at least two long, exactly two below 100, denotes n, and starts with '0' exactly when n < 10 |
| Decimal.ZFill2IsDecimalFromTen | SNOW_automation.py:235 | from 10 on, the padded id suffix is exactly `str(n)`, e.g. `REC100` |
| Decimal.ZFill2Injective | SNOW_automation.py:235 | distinct element numbers give distinct padded suffixes |
| Entities.AddAssociatedRisk | SNOW_automation.py:60-61 | after the append the element is associated with the risk and with exactly the risks it had before; the old list is a prefix of the new one and the risk is its one new last entry; id, description and kind are unchanged |
| Entities.IsAssociatedRisk | SNOW_automation.py:64-68 | true exactly when the risk occurs at least once in the element's link list |
| Entities.TerminatedIsJoinedPlusSeparator | SNOW_automation.py:71-78 | appending ", " after every id yields the ", "-joined list plus one trailing separator, which is why cutting two characters is right |
| Entities.AssociatedRiskString | SNOW_automation.py:71-78 | the risk column is "" for no risks and otherwise the ids joined by ", " with no trailing separator |
| Entities.AssociatedElements | SNOW_automation.py:127-132 | an element is returned exactly when it is in the table and linked to the risk; the result is no longer than the table |
| Entities.AssociatedElementsAppend | SNOW_automation.py:127-132 | the filter keeps table order: filtering a concatenation is the concatenation of the filtered parts |
| Entities.AssociatedDescriptions | SNOW_automation.py:119-124 | the text block is one "id: description" line per associated element, in table order |
| Extraction.NewDetail | SNOW_automation.py:250-262 | `reco_from_elem` builds a recommendation and `sm_from_elem` a security measure: the new element has the requested kind, and a recommendation carries the row's priority |
| Extraction.MatchIsPrefixClosed | SNOW_automation.py:269 | `re.match` anchors only at the start: a matching name stays matching whatever follows it |
| Extraction.IsRiskSheetName | SNOW_automation.py:269 | a sheet is a risk sheet exactly when its name starts with 'R' followed by two ASCII digits |
| Extraction.RiskSheetNameExamples | SNOW_automation.py:269 | "R01", "R123" and "R01 old" are risk sheets; "R1", "r01" and "Risk01" are not |
| Extraction.Gravity | SNOW_automation.py:277-280 | the gravity is the cell's text without its first four characters, and empty when the text (or "None") has at most four |
| Extraction.RiskFromSheetReadsRowFour | SNOW_automation.py:272-281 | a risk is read from the sheet name and row 4, columns 2 to 9, only: two sheets that agree there give the same risk |
| Extraction.RiskFromSheetFieldsAreSeparate | SNOW_automation.py:274 | cell (4, 3) feeds the description and nothing else: rewriting it changes only that field |
| Extraction.HeadersDistinct | SNOW_automation.py:31-38 | the four header texts are pairwise distinct, so the recommendations scan and the measures scan never stop at the same header, in either language |
| Extraction.RisksOf | SNOW_automation.py:268-282 | one risk per risk sheet at most, and every risk id is a risk-sheet name |
| Extraction.CheckNew | SNOW_automation.py:196-203 | the row is new exactly when no element has its description; every element with that description gains the risk, all others are unchanged |
| Extraction.AddRow | SNOW_automation.py:224-245 | a known description only adds links and keeps the length; a new one appends one element with the next zero-padded id, the row's description, the current risk and, for a recommendation, the row's priority |
| Extraction.MergeKeepsWellFormed | SNOW_automation.py:196-203 | merging a row into existing elements keeps the table invariant |
| Extraction.AppendKeepsWellFormed | SNOW_automation.py:233-245 | appending an element numbered `len(elem_tab)+1` with a fresh description keeps the table invariant |
| Extraction.AddRowPreservesWellFormed | SNOW_automation.py:224-245 | one extraction step keeps ids dense, descriptions distinct, every element linked and all of one kind |
| Extraction.AddRowLinks | SNOW_automation.py:224-262 | after one step an element is linked to a risk exactly when it was before, or the risk is the current one and the element carries the row's description |
| Extraction.DuplicateRowCreatesNothing | SNOW_automation.py:196-203 | a row repeating an existing description creates no element and appends the risk to that element's list |
| Extraction.WellFormedIdsDistinct | SNOW_automation.py:235-242 | in a well-formed table no two elements share an id |
| Extraction.PatchManagementScenario | SNOW_automation.py:224-262 | the same measure on R01 and R02 yields the single element SM01 linked to both, in that order |
| Extraction.RepeatedRowRepeatsLink | SNOW_automation.py:196-203 | a description repeated within one risk sheet links that risk twice and prints "R01, R01" |
| Extraction.SubTableBoundsUnique | SNOW_automation.py:206-214 | the sub-table range is determined by the sheet and the header text |
| Extraction.HeaderAtRow100IsSkipped | SNOW_automation.py:209 | a header that appears only in row 100 is never found |
| Extraction.GetIndex | SNOW_automation.py:206-214 | start is one below the first header row other than row 100; stop is the first empty row after the header other than row 100 |
| Extraction.AddRowExtends | SNOW_automation.py:224-245 | one step only appends elements, keeps existing ids, descriptions and kinds, extends link lists, and adds no link other than the current risk |
| Extraction.ExtendsTransitive | SNOW_automation.py:222-245 | consecutive steps for the same risk compose into one such extension |
| Extraction.FoldRows | SNOW_automation.py:223-245 | folding rows `lo` to `hi` adds at most one element per row and removes none; the elements already in the table keep their place, id and description |
| Extraction.FoldRowsExtends | SNOW_automation.py:222-245 | the loop over the rows keeps the table invariant and only extends the table |
| Extraction.AddRowRecordsRow | SNOW_automation.py:224-262 | after one step some element carries the row's description and is linked to the current risk |
| Extraction.ExtendsKeepsRecords | SNOW_automation.py:196-203 | extending a table loses no (description, risk) link |
| Extraction.FoldRowsRecordsRows | SNOW_automation.py:222-245 | every folded row's description is carried by an element linked to the risk |
| Extraction.ExtractElements | SNOW_automation.py:217-245 | `get_elems_from_RXX` folds exactly the rows of the located sub-table; each of those rows ends up in an element linked to the risk; the invariant is kept and the table only extended |
| Extraction.ExtendsKeepsLinksWithin | SNOW_automation.py:282-290 | if every link was to a known risk before, it still is after linking the current risk |
| Extraction.GetRisksInf | SNOW_automation.py:265-292 | both tables are well formed, the risks are those of the risk sheets in workbook order, and every link points to one of them |
| WorkbookWriter.CleanColumn | SNOW_automation.py:338-342 | the run of non-empty cells from the start row is emptied, stopping at the first empty cell; every other cell is unchanged |
| WorkbookWriter.CleanTable | SNOW_automation.py:345-347 | each listed column's run is emptied; unlisted columns are untouched |
| WorkbookWriter.WriteRow | SNOW_automation.py:355-358 | the row's listed cells receive the values; every other cell is unchanged |
| WorkbookWriter.WriteTable | SNOW_automation.py:350-380 | after cleaning, row i of the table is written i rows below the origin; elsewhere the sheet is the cleaned sheet |
| WorkbookWriter.RiskColumnsDistinct | SNOW_automation.py:370 | no column of the risk-analysis table is listed twice |
| WorkbookWriter.RiskRowCells | SNOW_automation.py:372-380 | written cells of one risk row show id, theme, description, linked measures, initial impact and potentiality, linked recommendations, residual impact and potentiality |
| WorkbookWriter.RiskRowsShown | SNOW_automation.py:372-380 | every risk row of the table shows its risk |
| WorkbookWriter.RiskFrame | SNOW_automation.py:370 | rows above 7 are untouched; below the written rows only the old runs are cleared; column 8 and other unlisted columns are untouched |
| WorkbookWriter.WriteActionPlan | SNOW_automation.py:352-358 | recommendation i occupies row 5+i: id, linked risk ids, description, priority; old rows below are cleared; the header rows above row 5 and the other columns are untouched |
| WorkbookWriter.WriteMeasures | SNOW_automation.py:361-366 | measure i occupies row 5+i: id, linked risk ids, description; old rows below are cleared; the header rows above row 5 and the other columns are untouched |
| WorkbookWriter.WriteRiskAnalysis | SNOW_automation.py:369-380 | risk i occupies row 7+i with its text blocks of linked measures and recommendations; the header rows above row 7, column 8 and the other unlisted columns are never written |
| WorkbookWriter.UpdateExcelFile | SNOW_automation.py:350-380 | the three synthesis sheets carry the three layouts above, each from its own list |
| Taxonomy.RgbDistinct | SNOW_automation.py:19-23 | the five colour values are pairwise distinct, so a cell's colour identifies its class |
| Taxonomy.SetColorCell | SNOW_automation.py:405-415 | a cell is filled with the colour of the label's fill class, and left as it was when the label has none |
| Taxonomy.SetFontCell | SNOW_automation.py:418-427 | the cell always becomes bold; its font takes the colour of the label's font class, if any; text and fill are kept |
| Taxonomy.FontColourAgreesWithFill | SNOW_automation.py:405-427 | apart from "Facultative", a label that sets a font colour sets the same fill colour |
| Taxonomy.FontCoversThreeClasses | SNOW_automation.py:418-427 | font colours come only from the urgent, high and facultative classes |
| Taxonomy.TaxonomyAsymmetries | SNOW_automation.py:405-427 | "Facultatif" fills but sets no font colour, "Facultative" the reverse; "Priority" and "Arbitrage" fill but set no font colour |
| Deck.AddRows | SNOW_automation.py:432-439 | rows are added until the data rows cover the list; nothing is added when they already do; each earlier count was short |
| Deck.OneRowPerStepGrowth | SNOW_automation.py:437 | if each insertion adds one row, k insertions add k rows |
| Deck.OneRowPerStepIsTight | SNOW_automation.py:432-439 | with one row per insertion the table ends with exactly one header plus the list's rows, or keeps its size if it was larger |
| Deck.CleanTable | SNOW_automation.py:442-452 | a table of more than two rows keeps its header and one blanked row (the former last row, with text cleared); smaller tables are unchanged |
| Deck.Duplicate | SNOW_automation.py:617 | the copy of a slide is inserted right after it and every other slide keeps its order |
| Deck.DuplicateRiskSlides | SNOW_automation.py:615-618 | max(1, number of risks) contiguous risk slides, all copies of the template, start at the template; the slides around them are kept |
| Deck.PlanRiskSlide | SNOW_automation.py:463-502 | a risk slide lists exactly the linked recommendations and measures, in table order and each once (the `get_associated_elements` filter); recommendation ids take the font of their priority; both gravity cells take the fill of their label |
| Deck.UpdateRiskSlide | SNOW_automation.py:463-481 | both slide tables are grown by `add_rows` until they have a row for every linked recommendation and measure, and are left as they are when they already do; every recommendation id cell receives its id, is bold, keeps its fill, and takes the font colour of its priority when the label has one |

## Left out

- The Tkinter window, `controller`, `toggle_language_button` and the script's main block: these are user interface.
- `openWorkbook`, `search_slide`, `get_shape_item`, `get_textFrame` and the COM objects of Excel and PowerPoint: these are host plumbing. Worksheets and slides are passed in directly.
- `get_additional_PSP_inf` and `ProjectPSP`: they read project fields verbatim and hold no reconciliation logic.
- `__str__` methods: debugging output.
- `PresentationPPT` and `clean_RO1_slide`: slide bookkeeping, and five `clean_table` calls on named shapes; `clean_table` itself is modelled by `Deck.CleanTable`.
- Step 5 of `update_ppt_file` (`update_RXX_slide`): the elements and colours a risk slide shows are given by `Deck.PlanRiskSlide`. The row provisioning and the bold id cells are given by `Deck.UpdateRiskSlide`. The other text writes into table cells (descriptions, the risk's fields) are not modelled.
- Steps 6 to 8 of `update_ppt_file` (`update_risks_synth_slide`, `update_recos_synth_slide`, `update_sm_synth_slide`): the synthesis tables are not modelled. They grow a table with `add_rows` and write list fields row by row; steps 6 and 7 also colour cells through `set_color_cell`/`set_font_cell`, while step 8 colours nothing. Those three helpers are modelled, the row-by-row writes are not.
- Step 9 of `update_ppt_file` (`update_addit_inf_slides`): it copies project text into slides and holds no reconciliation logic.
- Cell values are modelled as text. Numbers and dates are not distinguished, and writing "" leaves a text cell, not an empty one.
- `\d` in Python also matches non-ASCII Unicode digits; the model accepts ASCII digits only.
- Exceptions raised by the host applications are not modelled.
- GetRisksInf: does not say which rows each table received; the per-row behaviour is stated by `Extraction.ExtractElements` and `Extraction.FoldRows`.
- GetRisksInf: requires both headers on every risk sheet, because without a header `get_index` never terminates.
- ExtractElements: requires the header to be present, for the same reason.
- RisksOf: states only the count bound and the id pattern; the cell-to-field mapping lives in `RiskFromSheet`.
- AddRows: the growth per `Rows.Add` call is an abstract strictly increasing step, because the row count is read back from PowerPoint.

=== FILE: Decimal.dfy ===
/** Decimal rendering of natural numbers, as Python's `str(n)` and
    `str(n).zfill(2)` produce it for the element id counters. */
module Decimal {

  predicate IsDigitChar(c: char) {
    '0' <= c <= '9'
  }

  predicate AllDigits(s: string) {
    forall i :: 0 <= i < |s| ==> IsDigitChar(s[i])
  }

  function DigitChar(d: nat): (c: char)
    requires d < 10
    ensures IsDigitChar(c)
    ensures c as int - '0' as int == d
  {
    ('0' as int + d) as char
  }

  function DigitValue(c: char): nat
    requires IsDigitChar(c)
  {
    c as int - '0' as int
  }

  /** `str(n)` for a non-negative int: most significant digit first, no leading zeros. */
  function DecimalDigits(n: nat): (s: string)
    ensures |s| >= 1 && AllDigits(s)
    ensures n < 10 <==> |s| == 1
    ensures n < 100 ==> |s| <= 2
    ensures s[0] == '0' <==> n == 0
    decreases n
  {
    if n < 10 then [DigitChar(n)] else DecimalDigits(n / 10) + [DigitChar(n % 10)]
  }

  /** Reads a string of decimal digits back as a number (leading zeros allowed). */
  function DecimalValue(s: string): nat
    requires AllDigits(s)
  {
    if |s| == 0 then 0 else 10 * DecimalValue(s[..|s| - 1]) + DigitValue(s[|s| - 1])
  }

  lemma {:induction false} DecimalRoundTrip(n: nat)
    ensures DecimalValue(DecimalDigits(n)) == n
    decreases n
  {
    if n >= 10 {
      var s := DecimalDigits(n);
      assert s[..|s| - 1] == DecimalDigits(n / 10);
      DecimalRoundTrip(n / 10);
    }
  }

  /** A digit string whose first digit is not '0' (or which is "0" itself) has value at least one. */
  lemma {:induction false} LeadingDigitPositive(s: string)
    requires |s| >= 1 && AllDigits(s) && s[0] != '0'
    ensures DecimalValue(s) >= 1
    decreases |s|
  {
    if |s| > 1 {
      LeadingDigitPositive(s[..|s| - 1]);
    }
  }

  /** `str` is the only way to write a number without leading zeros: any digit
      string without a leading '0' (other than "0") is the decimal form of its value. */
  lemma {:induction false} DecimalDigitsCanonical(s: string)
    requires |s| >= 1 && AllDigits(s) && (|s| > 1 ==> s[0] != '0')
    ensures DecimalDigits(DecimalValue(s)) == s
    decreases |s|
  {
    if |s| > 1 {
      var front := s[..|s| - 1];
      LeadingDigitPositive(front);
      DecimalDigitsCanonical(front);
      var n := DecimalValue(s);
      assert n / 10 == DecimalValue(front) && n % 10 == DigitValue(s[|s| - 1]);
      assert DigitChar(n % 10) == s[|s| - 1];
      assert s == front + [s[|s| - 1]];
    } else {
      assert s[..0] == [];
      assert DecimalValue(s) == DigitValue(s[0]) < 10;
      assert DigitChar(DecimalValue(s)) == s[0];
    }
  }

  /** `str(n).zfill(2)`: the decimal form left-padded with '0' to width two. */
  function ZFill2(n: nat): (s: string)
    ensures |s| >= 2 && AllDigits(s)
    ensures n < 100 ==> |s| == 2
    ensures DecimalValue(s) == n
    ensures s[0] == '0' <==> n < 10
  {
    var d := DecimalDigits(n);
    DecimalRoundTrip(n);
    if |d| < 2 then
      var s := "0" + d;
      assert s[..|s| - 1] == "0";
      assert DecimalValue("0") == 0;
      s
    else
      d
  }

  /** From 10 on, padding changes nothing: the padded form is exactly `str(n)`. */
  lemma ZFill2IsDecimalFromTen(n: nat)
    requires n >= 10
    ensures ZFill2(n) == DecimalDigits(n)
  {
    DecimalDigitsCanonical(ZFill2(n));
  }

  /** Distinct counters give distinct padded forms, so the ids built from them never collide. */
  lemma ZFill2Injective(m: nat, n: nat)
    requires ZFill2(m) == ZFill2(n)
    ensures m == n
  {
  }
}

=== FILE: Deck.dfy ===
/** The deck synchroniser's structural steps: growing and trimming tables,
    duplicating the risk slide, and the colour decisions on a risk slide. */
module Deck {
  import opened Wrappers
  import opened Entities
  import opened Taxonomy

  /** A deck table as rows of cells; row 0 is the header. */
  type Table = seq<seq<TableCell>>

  /** The row count after `k` calls of the host's row-adding step. */
  ghost function Grown(grow: nat -> nat, rows: nat, k: nat): nat {
    if k == 0 then rows else grow(Grown(grow, rows, k - 1))
  }

  /** `add_rows`: calls the host's row-adding step (each call adds at least one
      row) while the rows below the header are fewer than `need`. It stops at
      the first count that suffices, and adds nothing if the table already does. */
  method AddRows(rows: nat, need: nat, grow: nat -> nat) returns (final: nat, steps: nat)
    requires forall k: nat :: grow(k) > k
    ensures final - 1 >= need
    ensures rows - 1 >= need ==> final == rows && steps == 0
    ensures final == Grown(grow, rows, steps)
    ensures forall k :: 0 <= k < steps ==> Grown(grow, rows, k) - 1 < need
  {
    final, steps := rows, 0;
    while final - 1 < need
      invariant final == Grown(grow, rows, steps)
      invariant forall k :: 0 <= k < steps ==> Grown(grow, rows, k) - 1 < need
      decreases need + 1 - final
    {
      final := grow(final);
      steps := steps + 1;
    }
  }

  function NextCount(k: nat): nat {
    k + 1
  }

  lemma {:induction false} OneRowPerStepGrowth(rows: nat, k: nat)
    ensures Grown(NextCount, rows, k) == rows + k
    decreases k
  {
    if k > 0 {
      OneRowPerStepGrowth(rows, k - 1);
    }
  }

  /** When each step adds exactly one row, provisioning ends with exactly
      max(rows, need + 1) rows: never more than the list needs. */
  lemma OneRowPerStepIsTight(rows: nat, need: nat, steps: nat)
    requires Grown(NextCount, rows, steps) - 1 >= need
    requires forall k :: 0 <= k < steps ==> Grown(NextCount, rows, k) - 1 < need
    ensures Grown(NextCount, rows, steps) == if rows > need then rows else need + 1
  {
    OneRowPerStepGrowth(rows, steps);
    if steps > 0 {
      OneRowPerStepGrowth(rows, steps - 1);
    }
  }

  /** `clean_table`: with more than two rows, deletes the second row until
      two are left (the header and the old last row) and empties the texts of
      that last row, keeping its styling; with two rows or fewer, nothing changes. */
  method CleanTable(t: Table) returns (t': Table)
    ensures |t| <= 2 ==> t' == t
    ensures |t| > 2 ==> |t'| == 2 && t'[0] == t[0] && |t'[1]| == |t[|t| - 1]|
    ensures |t| > 2 ==> forall j :: 0 <= j < |t'[1]| ==> t'[1][j] == t[|t| - 1][j].(text := "")
  {
    var n := |t|;
    t' := t;
    if n > 2 {
      var i := 3;
      while i < n + 1
        invariant 3 <= i <= n + 1
        invariant t' == [t[0]] + t[i - 2..]
      {
        t' := t'[..1] + t'[2..];
        i := i + 1;
      }
      var row := t'[1];
      t' := t'[1 := seq(|row|, j requires 0 <= j < |row| => row[j].(text := ""))];
    }
  }

  /** The host's `Slide.Duplicate()`: the copy is inserted right after the original. */
  function Duplicate<S>(deck: seq<S>, pos: nat): (deck': seq<S>)
    requires pos < |deck|
    ensures |deck'| == |deck| + 1
    ensures deck'[..pos + 1] == deck[..pos + 1] && deck'[pos + 1] == deck[pos] && deck'[pos + 2..] == deck[pos + 1..]
  {
    deck[..pos + 1] + [deck[pos]] + deck[pos + 1..]
  }

  /** Step [4] of `update_ppt_file`: the template risk slide is duplicated
      once per risk beyond the first, each time from the latest risk slide.
      There are max(1, riskCount) risk slides, contiguous from the template,
      all copies of it; the slides around them are unchanged. */
  method DuplicateRiskSlides<S(==)>(deck: seq<S>, template: nat, riskCount: nat) returns (deck': seq<S>, riskSlides: seq<nat>)
    requires template < |deck|
    ensures |riskSlides| == if riskCount == 0 then 1 else riskCount
    ensures forall i :: 0 <= i < |riskSlides| ==> riskSlides[i] == template + i
    ensures |deck'| == |deck| + |riskSlides| - 1
    ensures deck'[..template] == deck[..template]
    ensures forall i :: template <= i < template + |riskSlides| ==> deck'[i] == deck[template]
    ensures deck'[template + |riskSlides|..] == deck[template + 1..]
  {
    deck', riskSlides := deck, [template];
    var i := 0;
    while i < riskCount - 1
      invariant 0 <= i <= if riskCount == 0 then 0 else riskCount - 1
      invariant |riskSlides| == i + 1
      invariant forall k :: 0 <= k < |riskSlides| ==> riskSlides[k] == template + k
      invariant |deck'| == |deck| + i
      invariant deck'[..template] == deck[..template]
      invariant forall k :: template <= k <= template + i ==> deck'[k] == deck[template]
      invariant deck'[template + i + 1..] == deck[template + 1..]
    {
      var last := riskSlides[i];
      var next := Duplicate(deck', last);
      assert next[..template] == deck'[..template];
      assert next[template + i + 2..] == deck'[template + i + 1..];
      assert forall k :: template <= k <= template + i ==> next[k] == deck'[k];
      assert next[template + i + 1] == deck[template];
      deck', riskSlides := next, riskSlides + [last + 1];
      i := i + 1;
    }
  }

  /** What a risk slide shows besides plain text: the recommendations and
      measures linked to the risk, the font colour of each recommendation id,
      and the fill of the two gravity cells. */
  datatype RiskSlidePlan = RiskSlidePlan(
    recommendations: seq<Element>,
    measures: seq<Element>,
    recommendationFonts: seq<Option<Color>>,
    initialGravityFill: Option<Color>,
    residualGravityFill: Option<Color>)

  /** `update_RXX_slide`, without its text writes. */
  function PlanRiskSlide(risk: Risk, recos: seq<Element>, measures: seq<Element>): (p: RiskSlidePlan)
    requires forall i :: 0 <= i < |recos| ==> recos[i].detail.Recommendation?
    ensures forall e :: e in p.recommendations <==> e in recos && IsAssociatedRisk(e, risk.id)
    ensures forall e :: e in p.measures <==> e in measures && IsAssociatedRisk(e, risk.id)
    ensures p.recommendations == AssociatedElements(risk.id, recos)
    ensures p.measures == AssociatedElements(risk.id, measures)
    ensures |p.recommendationFonts| == |p.recommendations|
    ensures forall i :: 0 <= i < |p.recommendations| ==>
      p.recommendations[i].detail.Recommendation? && p.recommendationFonts[i] == FontClass(p.recommendations[i].detail.priority)
    ensures p.initialGravityFill == FillClass(Some(risk.initialGravity))
    ensures p.residualGravityFill == FillClass(Some(risk.residualGravity))
  {
    var shown := AssociatedElements(risk.id, recos);
    assert forall i :: 0 <= i < |shown| ==> shown[i] in recos;
    RiskSlidePlan(
      shown,
      AssociatedElements(risk.id, measures),
      seq(|shown|, i requires 0 <= i < |shown| => FontClass(shown[i].detail.priority)),
      FillClass(Some(risk.initialGravity)),
      FillClass(Some(risk.residualGravity)))
  }

  /** `update_RXX_slide` on the two element tables: each table is first grown by
      `add_rows` until it has a row below the header for every linked element
      (`recoRows` and `measureRows` are the row counts before, header included).
      Recommendation `i` then writes its id into the id cell of row `2 + i`, given
      by `idCell(i)`, which `set_font_cell` makes bold and colours by priority. */
  method UpdateRiskSlide(risk: Risk, recos: seq<Element>, measures: seq<Element>,
                         recoRows: nat, measureRows: nat, grow: nat -> nat, idCell: nat -> TableCell)
    returns (p: RiskSlidePlan, recoRows': nat, measureRows': nat, idCells: seq<TableCell>)
    requires forall i :: 0 <= i < |recos| ==> recos[i].detail.Recommendation?
    requires forall k: nat :: grow(k) > k
    ensures p == PlanRiskSlide(risk, recos, measures)
    ensures recoRows' - 1 >= |p.recommendations|
    ensures recoRows - 1 >= |p.recommendations| ==> recoRows' == recoRows
    ensures measureRows' - 1 >= |p.measures|
    ensures measureRows - 1 >= |p.measures| ==> measureRows' == measureRows
    ensures |idCells| == |p.recommendations|
    ensures forall i :: 0 <= i < |idCells| ==>
      && idCells[i].bold
      && idCells[i].text == p.recommendations[i].id
      && idCells[i].fill == idCell(i).fill
      && (p.recommendationFonts[i].Some? ==> idCells[i].fontColor == Rgb(p.recommendationFonts[i].value))
      && (p.recommendationFonts[i].None? ==> idCells[i].fontColor == idCell(i).fontColor)
  {
    p := PlanRiskSlide(risk, recos, measures);
    var recoSteps, measureSteps;
    recoRows', recoSteps := AddRows(recoRows, |p.recommendations|, grow);
    idCells := [];
    for i := 0 to |p.recommendations|
      invariant |idCells| == i
      invariant forall j :: 0 <= j < i ==>
        idCells[j] == SetFontCell(p.recommendations[j].detail.priority, idCell(j).(text := p.recommendations[j].id))
    {
      idCells := idCells + [SetFontCell(p.recommendations[i].detail.priority, idCell(i).(text := p.recommendations[i].id))];
    }
    measureRows', measureSteps := AddRows(measureRows, |p.measures|, grow);
  }
}

=== FILE: Entities.dfy ===
/** The register's entities: risks, and the elements (recommendations and
    security measures) that mitigate them, with their association views. */
module Entities {
  import opened Wrappers

  /** One risk, built from one risk sheet; `id` is the sheet name. Raw cells
      stay `Option`s; the two gravities are already derived text. */
  datatype Risk = Risk(
    id: string,
    theme: Option<string>,
    description: Option<string>,
    initialImpact: Option<string>,
    initialPotentiality: Option<string>,
    initialGravity: string,
    residualImpact: Option<string>,
    residualPotentiality: Option<string>,
    residualGravity: string)

  /** What distinguishes the two kinds of element. */
  datatype Detail = Recommendation(priority: Option<string>) | SecurityMeasure

  /** A recommendation or security measure; `risks` lists the ids of the
      risks it is linked to, in the order the links were made, repeats kept. */
  datatype Element = Element(id: string, description: Option<string>, risks: seq<string>, detail: Detail)

  /** Python's `str()` of a cell value; an empty cell prints as "None". */
  function PyStr(v: Option<string>): string {
    match v
    case None => "None"
    case Some(s) => s
  }

  /** `is_associated_risk`: the risk occurs at least once in the link list. */
  function IsAssociatedRisk(e: Element, riskId: string): (r: bool)
    ensures r <==> multiset(e.risks)[riskId] > 0
  {
    riskId in e.risks
  }

  /** Links one more risk to `e`; nothing but the link list changes. */
  function AddAssociatedRisk(e: Element, riskId: string): (e': Element)
    ensures IsAssociatedRisk(e', riskId)
    ensures forall other :: IsAssociatedRisk(e', other) <==> IsAssociatedRisk(e, other) || other == riskId
    ensures |e'.risks| == |e.risks| + 1 && e'.risks[..|e.risks|] == e.risks
    ensures e'.risks[|e.risks|] == riskId
    ensures e'.id == e.id && e'.description == e.description && e'.detail == e.detail
  {
    e.(risks := e.risks + [riskId])
  }

  /** Reference definition: the ids separated by ", ", nothing before or after. */
  function JoinRiskIds(ids: seq<string>): string
    requires |ids| > 0
  {
    if |ids| == 1 then ids[0] else ids[0] + ", " + JoinRiskIds(ids[1..])
  }

  /** The loop of the source: every id followed by ", ". */
  function TerminatedRiskIds(ids: seq<string>): (s: string)
  {
    if |ids| == 0 then "" else ids[0] + ", " + TerminatedRiskIds(ids[1..])
  }

  lemma {:induction false} TerminatedIsJoinedPlusSeparator(ids: seq<string>)
    requires |ids| > 0
    ensures TerminatedRiskIds(ids) == JoinRiskIds(ids) + ", "
    decreases |ids|
  {
    if |ids| > 1 {
      TerminatedIsJoinedPlusSeparator(ids[1..]);
    } else {
      assert ids[1..] == [];
    }
  }

  /** `Element.get_associated_risk`: the accumulated string with its last two
      characters cut off. It is the ", "-separated list of the ids, in link order. */
  function AssociatedRiskString(ids: seq<string>): (r: string)
    ensures |ids| == 0 ==> r == ""
    ensures |ids| > 0 ==> r == JoinRiskIds(ids)
  {
    if |ids| == 0 then ""
    else
      var s := TerminatedRiskIds(ids);
      TerminatedIsJoinedPlusSeparator(ids);
      s[..|s| - 2]
  }

  /** `Risk.get_associated`: the elements of `tab` linked to the risk, in table order. */
  function AssociatedElements(riskId: string, tab: seq<Element>): (r: seq<Element>)
    ensures forall e :: e in r <==> e in tab && IsAssociatedRisk(e, riskId)
    ensures |r| <= |tab|
  {
    if |tab| == 0 then []
    else
      var rest := AssociatedElements(riskId, tab[..|tab| - 1]);
      var last := tab[|tab| - 1];
      assert tab == tab[..|tab| - 1] + [last];
      if IsAssociatedRisk(last, riskId) then rest + [last] else rest
  }

  /** The selection keeps table order: selecting from a concatenation is
      concatenating the selections. */
  lemma {:induction false} AssociatedElementsAppend(riskId: string, a: seq<Element>, b: seq<Element>)
    ensures AssociatedElements(riskId, a + b) == AssociatedElements(riskId, a) + AssociatedElements(riskId, b)
    decreases |b|
  {
    if |b| > 0 {
      var b' := b[..|b| - 1];
      assert (a + b)[..|a + b| - 1] == a + b';
      AssociatedElementsAppend(riskId, a, b');
    } else {
      assert a + b == a;
    }
  }

  /** One line of the risk table's measure/recommendation column. */
  function ElementLine(e: Element): string {
    e.id + ": " + PyStr(e.description) + "\n"
  }

  function ElementLines(es: seq<Element>): string {
    if |es| == 0 then "" else ElementLines(es[..|es| - 1]) + ElementLine(es[|es| - 1])
  }

  /** `Risk.get_associated_asString`: walks the whole table and prints a line for
      each linked element; it is exactly the lines of the linked elements. */
  function AssociatedDescriptions(riskId: string, tab: seq<Element>): (r: string)
    ensures r == ElementLines(AssociatedElements(riskId, tab))
  {
    if |tab| == 0 then ""
    else
      var last := tab[|tab| - 1];
      var rest := AssociatedDescriptions(riskId, tab[..|tab| - 1]);
      if IsAssociatedRisk(last, riskId) then
        var sel := AssociatedElements(riskId, tab[..|tab| - 1]);
        assert (sel + [last])[..|sel + [last]| - 1] == sel;
        rest + ElementLine(last)
      else
        rest
  }
}

=== FILE: Extraction.dfy ===
/** The register extractor: reads the risk sheets of a workbook and builds the
    risk list and the deduplicated recommendation and measure tables. */
module Extraction {
  import opened Wrappers
  import opened Decimal
  import opened Sheets
  import opened Entities

  datatype Language = EN | FR

  datatype ElementKind = Recommendations | SecurityMeasures

  /** Column-3 header text that opens an element sub-table on a risk sheet. */
  function Header(kind: ElementKind, lang: Language): string {
    match (kind, lang)
    case (Recommendations, EN) => "Recommendation description"
    case (Recommendations, FR) => "Description des recommandations"
    case (SecurityMeasures, EN) => "Security measure description"
    case (SecurityMeasures, FR) => "Description des mesures de sécurité appliquées"
  }

  /** The four header texts are pairwise distinct: the recommendations scan and
      the measures scan never stop at the same header, in either language. */
  lemma HeadersDistinct(k1: ElementKind, l1: Language, k2: ElementKind, l2: Language)
    requires (k1, l1) != (k2, l2)
    ensures Header(k1, l1) != Header(k2, l2)
  {
  }

  function Prefix(kind: ElementKind): string {
    match kind
    case Recommendations => "REC"
    case SecurityMeasures => "SM"
  }

  function KindOf(d: Detail): ElementKind {
    match d
    case Recommendation(_) => Recommendations
    case SecurityMeasure => SecurityMeasures
  }

  /** The detail a new element gets; only recommendations keep the priority cell. */
  function NewDetail(kind: ElementKind, priority: Option<string>): (d: Detail)
    ensures KindOf(d) == kind
    ensures d.Recommendation? ==> d.priority == priority
  {
    match kind
    case Recommendations => Recommendation(priority)
    case SecurityMeasures => SecurityMeasure
  }

  // ----- Which sheets are risk sheets -----

  /** One position of a regular expression made of single-character classes. */
  datatype CharClass = Literal(c: char) | AnyDigit

  predicate ClassMatches(k: CharClass, c: char) {
    match k
    case Literal(l) => c == l
    case AnyDigit => IsDigitChar(c)
  }

  /** `re.match` of a fixed-width pattern: anchored at the start only, so any
      text may follow the matched part. */
  function MatchesAtStart(pattern: seq<CharClass>, s: string): bool
    decreases |pattern|
  {
    |pattern| == 0 || (|s| > 0 && ClassMatches(pattern[0], s[0]) && MatchesAtStart(pattern[1..], s[1..]))
  }

  lemma {:induction false} MatchIsPrefixClosed(pattern: seq<CharClass>, s: string, t: string)
    requires MatchesAtStart(pattern, s)
    ensures MatchesAtStart(pattern, s + t)
    decreases |pattern|
  {
    if |pattern| > 0 {
      assert (s + t)[0] == s[0];
      assert (s + t)[1..] == s[1..] + t;
      MatchIsPrefixClosed(pattern[1..], s[1..], t);
    }
  }

  /** `R\d{2}` */
  const RiskSheetPattern: seq<CharClass> := [Literal('R'), AnyDigit, AnyDigit]

  /** A sheet is a risk sheet when its name starts with 'R' and two digits;
      whatever follows ("R123", "R01 old") does not matter. */
  function IsRiskSheetName(name: string): (r: bool)
    ensures r <==> |name| >= 3 && name[0] == 'R' && IsDigitChar(name[1]) && IsDigitChar(name[2])
  {
    MatchesAtStart(RiskSheetPattern, name)
  }

  lemma RiskSheetNameExamples()
    ensures IsRiskSheetName("R01") && IsRiskSheetName("R123") && IsRiskSheetName("R01 old")
    ensures !IsRiskSheetName("R1") && !IsRiskSheetName("r01") && !IsRiskSheetName("Risk01")
  {
  }

  // ----- Risk construction -----

  /** `str(value)[4:]`: the cell's text without its first four characters;
      short texts, and an empty cell ("None"), give the empty string. */
  function Gravity(v: Option<string>): (g: string)
    ensures v == None ==> g == ""
    ensures |PyStr(v)| <= 4 ==> g == ""
    ensures |PyStr(v)| > 4 ==> |g| == |PyStr(v)| - 4 && PyStr(v) == PyStr(v)[..4] + g
  {
    var s := PyStr(v);
    if |s| <= 4 then "" else s[4..]
  }

  datatype Worksheet = Worksheet(name: string, cells: Sheet)

  /** The risk described by row 4 of a risk sheet. */
  function RiskFromSheet(ws: Worksheet): Risk {
    Risk(
      id := ws.name,
      theme := Get(ws.cells, 4, 2),
      description := Get(ws.cells, 4, 3),
      initialImpact := Get(ws.cells, 4, 4),
      initialPotentiality := Get(ws.cells, 4, 5),
      initialGravity := Gravity(Get(ws.cells, 4, 6)),
      residualImpact := Get(ws.cells, 4, 7),
      residualPotentiality := Get(ws.cells, 4, 8),
      residualGravity := Gravity(Get(ws.cells, 4, 9)))
  }

  /** The risks of a workbook: one per risk sheet, in sheet order. */
  function RisksOf(wb: seq<Worksheet>): (risks: seq<Risk>)
    ensures |risks| <= |wb|
    ensures forall k :: 0 <= k < |risks| ==> IsRiskSheetName(risks[k].id)
  {
    if |wb| == 0 then []
    else
      var last := wb[|wb| - 1];
      var rest := RisksOf(wb[..|wb| - 1]);
      if IsRiskSheetName(last.name) then rest + [RiskFromSheet(last)] else rest
  }

  function RiskIds(risks: seq<Risk>): set<string> {
    set r | r in risks :: r.id
  }

  /** A risk is read from the sheet name and row 4, columns 2 to 9, only:
      two sheets that agree there give the same risk. */
  lemma RiskFromSheetReadsRowFour(ws: Worksheet, ws': Worksheet)
    requires ws.name == ws'.name
    requires forall c :: 2 <= c <= 9 ==> Get(ws.cells, 4, c) == Get(ws'.cells, 4, c)
    ensures RiskFromSheet(ws) == RiskFromSheet(ws')
  {
    assert Get(ws.cells, 4, 2) == Get(ws'.cells, 4, 2);
    assert Get(ws.cells, 4, 3) == Get(ws'.cells, 4, 3);
    assert Get(ws.cells, 4, 4) == Get(ws'.cells, 4, 4);
    assert Get(ws.cells, 4, 5) == Get(ws'.cells, 4, 5);
    assert Get(ws.cells, 4, 6) == Get(ws'.cells, 4, 6);
    assert Get(ws.cells, 4, 7) == Get(ws'.cells, 4, 7);
    assert Get(ws.cells, 4, 8) == Get(ws'.cells, 4, 8);
    assert Get(ws.cells, 4, 9) == Get(ws'.cells, 4, 9);
  }

  /** Each field of the risk comes from its own cell: changing one cell of row 4
      changes only the field read from it. */
  lemma RiskFromSheetFieldsAreSeparate(ws: Worksheet, v: Option<string>)
    ensures var r := RiskFromSheet(ws);
      var r' := RiskFromSheet(ws.(cells := Put(ws.cells, 4, 3, v)));
      r' == r.(description := v)
  {
  }

  // ----- Deduplication -----

  predicate HasDescription(tab: seq<Element>, description: Option<string>) {
    exists i :: 0 <= i < |tab| && tab[i].description == description
  }

  /** `check_new`: links the risk to every element with the same description
      and reports whether there was none. */
  function CheckNew(tab: seq<Element>, description: Option<string>, riskId: string): (res: (bool, seq<Element>))
    ensures res.0 <==> !HasDescription(tab, description)
    ensures |res.1| == |tab|
    ensures forall i :: 0 <= i < |tab| ==>
      res.1[i] == if tab[i].description == description then AddAssociatedRisk(tab[i], riskId) else tab[i]
  {
    if |tab| == 0 then (true, [])
    else
      var (isNew, rest) := CheckNew(tab[1..], description, riskId);
      var first := if tab[0].description == description then AddAssociatedRisk(tab[0], riskId) else tab[0];
      assert forall i :: 1 <= i < |tab| ==> tab[i] == tab[1..][i - 1];
      (isNew && tab[0].description != description, [first] + rest)
  }

  /** The body of the row loop of `get_elems_from_RXX`: merge the row into the
      element with the same description, or append a new element numbered
      after the current table length. */
  function AddRow(tab: seq<Element>, kind: ElementKind, description: Option<string>, priority: Option<string>, riskId: string): (r: seq<Element>)
    ensures HasDescription(tab, description) ==> |r| == |tab|
    ensures !HasDescription(tab, description) ==>
      r == tab + [Element(Prefix(kind) + ZFill2(|tab| + 1), description, [riskId], NewDetail(kind, priority))]
    ensures forall i :: 0 <= i < |tab| ==>
      r[i] == if tab[i].description == description then AddAssociatedRisk(tab[i], riskId) else tab[i]
  {
    var (isNew, merged) := CheckNew(tab, description, riskId);
    if isNew then
      merged + [Element(Prefix(kind) + ZFill2(|merged| + 1), description, [riskId], NewDetail(kind, priority))]
    else
      merged
  }

  /** The table invariant extraction keeps: the i-th element (from 0) has id
      prefix + zfill(i+1, 2), descriptions are pairwise distinct, every element
      is linked to at least one risk, and all elements are of the table's kind. */
  predicate WellFormed(tab: seq<Element>, kind: ElementKind) {
    && (forall i :: 0 <= i < |tab| ==> tab[i].id == Prefix(kind) + ZFill2(i + 1))
    && (forall i, j :: 0 <= i < j < |tab| ==> tab[i].description != tab[j].description)
    && (forall i :: 0 <= i < |tab| ==> |tab[i].risks| > 0 && KindOf(tab[i].detail) == kind)
  }

  /** Merging a row changes no id, description or detail and removes no link. */
  lemma MergeKeepsWellFormed(tab: seq<Element>, merged: seq<Element>, kind: ElementKind)
    requires WellFormed(tab, kind) && |merged| == |tab|
    requires forall i :: 0 <= i < |tab| ==>
      merged[i].id == tab[i].id && merged[i].description == tab[i].description
      && merged[i].detail == tab[i].detail && |merged[i].risks| >= |tab[i].risks|
    ensures WellFormed(merged, kind)
  {
  }

  /** Appending an element with the next id and a new description. */
  lemma AppendKeepsWellFormed(tab: seq<Element>, e: Element, kind: ElementKind)
    requires WellFormed(tab, kind)
    requires e.id == Prefix(kind) + ZFill2(|tab| + 1) && |e.risks| > 0 && KindOf(e.detail) == kind
    requires forall i :: 0 <= i < |tab| ==> tab[i].description != e.description
    ensures WellFormed(tab + [e], kind)
  {
    var r := tab + [e];
    forall i | 0 <= i < |r|
      ensures r[i].id == Prefix(kind) + ZFill2(i + 1)
      ensures |r[i].risks| > 0 && KindOf(r[i].detail) == kind
    {
      if i < |tab| {
        assert r[i] == tab[i];
      }
    }
    forall i, j | 0 <= i < j < |r|
      ensures r[i].description != r[j].description
    {
      assert r[i] == tab[i];
      if j < |tab| {
        assert r[j] == tab[j];
      }
    }
  }

  lemma AddRowPreservesWellFormed(tab: seq<Element>, kind: ElementKind, description: Option<string>, priority: Option<string>, riskId: string)
    requires WellFormed(tab, kind)
    ensures WellFormed(AddRow(tab, kind, description, priority, riskId), kind)
  {
    var r := AddRow(tab, kind, description, priority, riskId);
    if HasDescription(tab, description) {
      MergeKeepsWellFormed(tab, r, kind);
    } else {
      var e := Element(Prefix(kind) + ZFill2(|tab| + 1), description, [riskId], NewDetail(kind, priority));
      AppendKeepsWellFormed(tab, e, kind);
    }
  }

  /** Merging vs creating: after a row, an element is linked to a risk exactly
      when it was before, or it carries the row's description and the risk is
      the row's. */
  lemma AddRowLinks(tab: seq<Element>, kind: ElementKind, description: Option<string>, priority: Option<string>, riskId: string)
    ensures var r := AddRow(tab, kind, description, priority, riskId);
      forall i, x :: 0 <= i < |r| ==>
        (IsAssociatedRisk(r[i], x) <==>
          (i < |tab| && IsAssociatedRisk(tab[i], x)) || (x == riskId && r[i].description == description))
  {
  }

  /** A duplicate row creates nothing: the first occurrence keeps its id,
      description and detail (so its priority), and only gains the risk link. */
  lemma DuplicateRowCreatesNothing(tab: seq<Element>, kind: ElementKind, i: nat, priority: Option<string>, riskId: string)
    requires i < |tab|
    ensures var r := AddRow(tab, kind, tab[i].description, priority, riskId);
      |r| == |tab| && r[i].id == tab[i].id && r[i].description == tab[i].description
      && r[i].detail == tab[i].detail && r[i].risks == tab[i].risks + [riskId]
  {
    assert HasDescription(tab, tab[i].description);
  }

  /** Ids of a well-formed table are pairwise distinct. */
  lemma WellFormedIdsDistinct(tab: seq<Element>, kind: ElementKind)
    requires WellFormed(tab, kind)
    ensures forall i, j :: 0 <= i < j < |tab| ==> tab[i].id != tab[j].id
  {
    var p := Prefix(kind);
    forall i, j | 0 <= i < j < |tab|
      ensures tab[i].id != tab[j].id
    {
      assert DecimalValue(ZFill2(i + 1)) != DecimalValue(ZFill2(j + 1));
      assert tab[i].id[|p|..] == ZFill2(i + 1);
      assert tab[j].id[|p|..] == ZFill2(j + 1);
    }
  }

  /** Two risk sheets that both list "Patch management" as a measure give one
      measure, SM01, linked to both risks. */
  lemma PatchManagementScenario()
    ensures var t1 := AddRow([], SecurityMeasures, Some("Patch management"), None, "R01");
      AddRow(t1, SecurityMeasures, Some("Patch management"), None, "R02")
        == [Element("SM01", Some("Patch management"), ["R01", "R02"], SecurityMeasure)]
  {
    var t1 := AddRow([], SecurityMeasures, Some("Patch management"), None, "R01");
    assert ZFill2(1) == "01";
    assert Prefix(SecurityMeasures) + ZFill2(1) == "SM01";
    assert t1 == [Element("SM01", Some("Patch management"), ["R01"], SecurityMeasure)];
    assert t1[0].description == Some("Patch management");
    var t2 := AddRow(t1, SecurityMeasures, Some("Patch management"), None, "R02");
    assert |t2| == 1 && t2[0] == AddAssociatedRisk(t1[0], "R02");
    assert ["R01"] + ["R02"] == ["R01", "R02"];
  }

  /** Links are a list, not a set: the same description twice on one sheet
      links the risk twice, and the joined id string shows it twice. */
  lemma RepeatedRowRepeatsLink(d: Option<string>)
    ensures var t1 := AddRow([], Recommendations, d, None, "R01");
      var t2 := AddRow(t1, Recommendations, d, None, "R01");
      |t2| == 1 && t2[0].risks == ["R01", "R01"] && AssociatedRiskString(t2[0].risks) == "R01, R01"
  {
    var t1 := AddRow([], Recommendations, d, None, "R01");
    assert t1[0].description == d;
    assert TerminatedRiskIds(["R01", "R01"]) == "R01, R01, ";
  }

  // ----- Locating the element sub-table -----

  /** A row the header scan stops at: from row 1 on, never row 100. */
  ghost predicate IsHeaderRow(ws: Sheet, lookup: string, r: int) {
    r >= 1 && r != 100 && Get(ws, r, 3) == Some(lookup)
  }

  /** A row the end scan stops at: an empty column-3 cell, never row 100. */
  ghost predicate IsEndRow(ws: Sheet, r: int) {
    r != 100 && Get(ws, r, 3) == None
  }

  ghost predicate HasHeader(ws: Sheet, lookup: string) {
    exists r :: IsHeaderRow(ws, lookup, r)
  }

  /** The sub-table rows `get_index` settles on: `start - 1` is the first
      header row and `stop` the first end row after it. */
  ghost predicate SubTableBounds(ws: Sheet, lookup: string, start: int, stop: int) {
    && IsHeaderRow(ws, lookup, start - 1)
    && (forall r :: 1 <= r < start - 1 ==> !IsHeaderRow(ws, lookup, r))
    && start <= stop && IsEndRow(ws, stop)
    && (forall r :: start <= r < stop ==> !IsEndRow(ws, r))
  }

  /** The bounds are determined by the sheet: two scans agree. */
  lemma SubTableBoundsUnique(ws: Sheet, lookup: string, start: int, stop: int, start': int, stop': int)
    requires SubTableBounds(ws, lookup, start, stop) && SubTableBounds(ws, lookup, start', stop')
    ensures start == start' && stop == stop'
  {
  }

  /** A header at row 100 is never seen: without another header the scan does not stop. */
  lemma HeaderAtRow100IsSkipped(ws: Sheet, lookup: string)
    requires forall r :: r != 100 ==> Get(ws, r, 3) != Some(lookup)
    ensures !HasHeader(ws, lookup)
  {
  }

  /** `get_index`: returns (h + 1, e) for the first header row h and the first
      end row e after it. The source loops forever without a header; an end
      row always exists, since a sheet holds finitely many values. Row 100 is
      skipped by both scans, so an empty row 100 can lie inside the range. */
  method GetIndex(ws: Sheet, lookup: string) returns (start: int, stop: int)
    requires HasHeader(ws, lookup)
    ensures SubTableBounds(ws, lookup, start, stop)
  {
    ghost var h :| IsHeaderRow(ws, lookup, h);
    var s := 1;
    while Get(ws, s, 3) != Some(lookup) || s == 100
      invariant 1 <= s <= h
      invariant forall r :: 1 <= r < s ==> !IsHeaderRow(ws, lookup, r)
      decreases h - s
    {
      s := s + 1;
    }
    ghost var bound := RowBound(ws);
    ghost var limit := if bound > 101 then bound else 101;
    var e := s + 1;
    while Get(ws, e, 3) != None || e == 100
      invariant s < e <= limit
      invariant forall r :: s < r < e ==> !IsEndRow(ws, r)
      decreases limit - e
    {
      e := e + 1;
    }
    start, stop := s + 1, e;
  }

  // ----- Extraction loops -----

  /** `after` is `before` with more rows folded in for one risk: existing
      elements keep id, description and detail and only gain links (at the end
      of their lists) to that risk, and new elements start linked to it. */
  ghost predicate Extends(before: seq<Element>, after: seq<Element>, riskId: string) {
    && |before| <= |after|
    && (forall i :: 0 <= i < |before| ==>
          after[i].id == before[i].id && after[i].description == before[i].description
          && after[i].detail == before[i].detail && before[i].risks <= after[i].risks)
    && (forall i :: |before| <= i < |after| ==> |after[i].risks| > 0 && after[i].risks[0] == riskId)
    && (forall i, x :: 0 <= i < |after| && IsAssociatedRisk(after[i], x) ==>
          x == riskId || (i < |before| && IsAssociatedRisk(before[i], x)))
  }

  lemma AddRowExtends(tab: seq<Element>, kind: ElementKind, description: Option<string>, priority: Option<string>, riskId: string)
    ensures Extends(tab, AddRow(tab, kind, description, priority, riskId), riskId)
  {
    AddRowLinks(tab, kind, description, priority, riskId);
  }

  lemma ExtendsTransitive(a: seq<Element>, b: seq<Element>, c: seq<Element>, riskId: string)
    requires Extends(a, b, riskId) && Extends(b, c, riskId)
    ensures Extends(a, c, riskId)
  {
    forall i | |a| <= i < |c|
      ensures |c[i].risks| > 0 && c[i].risks[0] == riskId
    {
      if i < |b| {
        assert b[i].risks <= c[i].risks;
      }
    }
  }

  /** The priority a row contributes: column 4, read for recommendations only. */
  function RowPriority(ws: Sheet, kind: ElementKind, row: int): Option<string> {
    if kind == Recommendations then Get(ws, row, 4) else None
  }

  /** Reference definition: the rows from `lo` up to `hi` folded into the table
      in order. Each row adds at most one element, and earlier elements keep their place. */
  function FoldRows(tab: seq<Element>, ws: Sheet, kind: ElementKind, riskId: string, lo: int, hi: int): (r: seq<Element>)
    ensures |tab| <= |r| <= |tab| + (if lo < hi then hi - lo else 0)
    ensures forall i :: 0 <= i < |tab| ==> r[i].id == tab[i].id && r[i].description == tab[i].description
    decreases hi - lo
  {
    if lo >= hi then tab
    else FoldRows(AddRow(tab, kind, Get(ws, lo, 3), RowPriority(ws, kind, lo), riskId), ws, kind, riskId, lo + 1, hi)
  }

  /** Folding rows keeps a well-formed table well-formed, and only adds links to the risk. */
  lemma {:induction false} FoldRowsExtends(tab: seq<Element>, ws: Sheet, kind: ElementKind, riskId: string, lo: int, hi: int)
    ensures WellFormed(tab, kind) ==> WellFormed(FoldRows(tab, ws, kind, riskId, lo, hi), kind)
    ensures Extends(tab, FoldRows(tab, ws, kind, riskId, lo, hi), riskId)
    decreases hi - lo
  {
    if lo < hi {
      var next := AddRow(tab, kind, Get(ws, lo, 3), RowPriority(ws, kind, lo), riskId);
      if WellFormed(tab, kind) {
        AddRowPreservesWellFormed(tab, kind, Get(ws, lo, 3), RowPriority(ws, kind, lo), riskId);
      }
      AddRowExtends(tab, kind, Get(ws, lo, 3), RowPriority(ws, kind, lo), riskId);
      FoldRowsExtends(next, ws, kind, riskId, lo + 1, hi);
      assert FoldRows(tab, ws, kind, riskId, lo, hi) == FoldRows(next, ws, kind, riskId, lo + 1, hi);
      ExtendsTransitive(tab, next, FoldRows(next, ws, kind, riskId, lo + 1, hi), riskId);
    } else {
      assert FoldRows(tab, ws, kind, riskId, lo, hi) == tab;
      assert forall i :: 0 <= i < |tab| ==> tab[i].risks <= tab[i].risks;
    }
  }

  /** Some element of the table carries the description and is linked to the risk. */
  predicate Records(tab: seq<Element>, description: Option<string>, riskId: string) {
    exists i :: 0 <= i < |tab| && tab[i].description == description && IsAssociatedRisk(tab[i], riskId)
  }

  /** After one step the row's description is in the table, linked to the current risk. */
  lemma AddRowRecordsRow(tab: seq<Element>, kind: ElementKind, description: Option<string>, priority: Option<string>, riskId: string)
    ensures Records(AddRow(tab, kind, description, priority, riskId), description, riskId)
  {
    var r := AddRow(tab, kind, description, priority, riskId);
    if HasDescription(tab, description) {
      var i :| 0 <= i < |tab| && tab[i].description == description;
      assert r[i].description == description && IsAssociatedRisk(r[i], riskId);
    } else {
      assert r[|tab|].description == description && IsAssociatedRisk(r[|tab|], riskId);
    }
  }

  /** An extension loses no recorded link. */
  lemma ExtendsKeepsRecords(before: seq<Element>, after: seq<Element>, riskId: string, description: Option<string>, x: string)
    requires Extends(before, after, riskId) && Records(before, description, x)
    ensures Records(after, description, x)
  {
    var i :| 0 <= i < |before| && before[i].description == description && IsAssociatedRisk(before[i], x);
    var k :| 0 <= k < |before[i].risks| && before[i].risks[k] == x;
    assert after[i].risks[k] == x;
  }

  /** Every folded row ends up in the table: its description is carried by an
      element that is linked to the risk. */
  lemma {:induction false} FoldRowsRecordsRows(tab: seq<Element>, ws: Sheet, kind: ElementKind, riskId: string, lo: int, hi: int)
    ensures forall r :: lo <= r < hi ==> Records(FoldRows(tab, ws, kind, riskId, lo, hi), Get(ws, r, 3), riskId)
    decreases hi - lo
  {
    if lo < hi {
      var next := AddRow(tab, kind, Get(ws, lo, 3), RowPriority(ws, kind, lo), riskId);
      var t := FoldRows(next, ws, kind, riskId, lo + 1, hi);
      assert FoldRows(tab, ws, kind, riskId, lo, hi) == t;
      FoldRowsRecordsRows(next, ws, kind, riskId, lo + 1, hi);
      AddRowRecordsRow(tab, kind, Get(ws, lo, 3), RowPriority(ws, kind, lo), riskId);
      FoldRowsExtends(next, ws, kind, riskId, lo + 1, hi);
      assert Extends(next, t, riskId);
      ExtendsKeepsRecords(next, t, riskId, Get(ws, lo, 3), riskId);
      forall r | lo <= r < hi
        ensures Records(t, Get(ws, r, 3), riskId)
      {
        if r > lo {
          assert lo + 1 <= r < hi;
        }
      }
    }
  }

  /** `get_elems_from_RXX`: folds every row of the sheet's sub-table, from the
      row after the header to the row before the end row, into the table; the
      well-formedness invariant is kept and earlier elements only gain links. */
  method ExtractElements(ws: Sheet, riskId: string, tab: seq<Element>, kind: ElementKind, lang: Language)
    returns (tab': seq<Element>)
    requires HasHeader(ws, Header(kind, lang))
    ensures exists start, stop ::
      && SubTableBounds(ws, Header(kind, lang), start, stop)
      && tab' == FoldRows(tab, ws, kind, riskId, start, stop)
      && (forall r :: start <= r < stop ==> Records(tab', Get(ws, r, 3), riskId))
    ensures WellFormed(tab, kind) ==> WellFormed(tab', kind)
    ensures Extends(tab, tab', riskId)
  {
    var start, stop := GetIndex(ws, Header(kind, lang));
    tab' := FoldRows(tab, ws, kind, riskId, start, stop);
    FoldRowsExtends(tab, ws, kind, riskId, start, stop);
    FoldRowsRecordsRows(tab, ws, kind, riskId, start, stop);
  }

  /** Every link of the table points at one of the given risk ids. */
  ghost predicate LinksWithin(tab: seq<Element>, ids: set<string>) {
    forall i, x :: 0 <= i < |tab| && IsAssociatedRisk(tab[i], x) ==> x in ids
  }

  lemma ExtendsKeepsLinksWithin(before: seq<Element>, after: seq<Element>, riskId: string, ids: set<string>, ids': set<string>)
    requires Extends(before, after, riskId) && LinksWithin(before, ids)
    requires ids <= ids' && riskId in ids'
    ensures LinksWithin(after, ids')
  {
  }

  /** `get_PSP_risks_inf`: visits the sheets in workbook order; for each risk
      sheet it appends the risk and then folds in its recommendation rows and
      its measure rows. Ids are dense per table across all sheets, and every
      link points at an extracted risk. */
  method GetRisksInf(wb: seq<Worksheet>, lang: Language) returns (recoTab: seq<Element>, smTab: seq<Element>, riskTab: seq<Risk>)
    requires forall i :: 0 <= i < |wb| && IsRiskSheetName(wb[i].name) ==>
      HasHeader(wb[i].cells, Header(Recommendations, lang)) && HasHeader(wb[i].cells, Header(SecurityMeasures, lang))
    ensures WellFormed(recoTab, Recommendations) && WellFormed(smTab, SecurityMeasures)
    ensures riskTab == RisksOf(wb)
    ensures LinksWithin(recoTab, RiskIds(riskTab)) && LinksWithin(smTab, RiskIds(riskTab))
  {
    var recosSoFar: seq<Element>, measuresSoFar: seq<Element>, risksSoFar: seq<Risk> := [], [], [];
    var i := 0;
    while i < |wb|
      invariant i <= |wb|
      invariant WellFormed(recosSoFar, Recommendations) && WellFormed(measuresSoFar, SecurityMeasures)
      invariant risksSoFar == RisksOf(wb[..i])
      invariant LinksWithin(recosSoFar, RiskIds(risksSoFar)) && LinksWithin(measuresSoFar, RiskIds(risksSoFar))
    {
      var ws := wb[i];
      assert wb[..i + 1][..i] == wb[..i];
      if IsRiskSheetName(ws.name) {
        var risk := RiskFromSheet(ws);
        ghost var ids := RiskIds(risksSoFar);
        risksSoFar := risksSoFar + [risk];
        ghost var ids' := RiskIds(risksSoFar);
        assert ids <= ids' && risk.id in ids';
        var recosSoFar' := ExtractElements(ws.cells, risk.id, recosSoFar, Recommendations, lang);
        ExtendsKeepsLinksWithin(recosSoFar, recosSoFar', risk.id, ids, ids');
        var measuresSoFar' := ExtractElements(ws.cells, risk.id, measuresSoFar, SecurityMeasures, lang);
        ExtendsKeepsLinksWithin(measuresSoFar, measuresSoFar', risk.id, ids, ids');
        recosSoFar, measuresSoFar := recosSoFar', measuresSoFar';
      }
      i := i + 1;
    }
    assert wb[..i] == wb;
    recoTab, smTab, riskTab := recosSoFar, measuresSoFar, risksSoFar;
  }
}

=== FILE: Sheets.dfy ===
/** A worksheet seen through the host's cell-access primitive: a finite map
    from (row, column) to the cell's text, where a missing key is an empty cell. */
module Sheets {
  import opened Wrappers

  type Sheet = map<(int, int), string>

  /** `ws.Cells(row, col).Value`. */
  function Get(ws: Sheet, row: int, col: int): Option<string> {
    if (row, col) in ws then Some(ws[(row, col)]) else None
  }

  /** `ws.Cells(row, col).Value = v`; assigning `None` empties the cell. */
  function Put(ws: Sheet, row: int, col: int, v: Option<string>): (ws': Sheet)
    ensures Get(ws', row, col) == v
    ensures forall r, c :: (r != row || c != col) ==> Get(ws', r, c) == Get(ws, r, c)
  {
    match v
    case None => ws - {(row, col)}
    case Some(s) => ws[(row, col) := s]
  }

  ghost function MaxRowPlusOne(keys: set<(int, int)>): (b: int)
    ensures forall k :: k in keys ==> k.0 < b
    decreases keys
  {
    if keys == {} then 0
    else
      var k :| k in keys;
      var rest := MaxRowPlusOne(keys - {k});
      if k.0 + 1 > rest then k.0 + 1 else rest
  }

  /** A row from which every cell of the sheet is empty: a sheet holds finitely many values. */
  ghost function RowBound(ws: Sheet): (b: int)
    ensures forall r, c :: r >= b ==> Get(ws, r, c) == None
  {
    MaxRowPlusOne(ws.Keys)
  }

  /** Row `r` of column `col` lies in the unbroken run of non-empty cells that starts at `start`. */
  ghost predicate InRun(ws: Sheet, start: int, col: int, r: int) {
    start <= r && forall i :: start <= i <= r ==> Get(ws, i, col) != None
  }
}

=== FILE: Taxonomy.dfy ===
/** The severity/priority taxonomy: which cell values colour a table cell's
    fill, and which colour the text of an id cell. */
module Taxonomy {
  import opened Wrappers

  datatype Color = Urgent | High | Facultative | Acceptable | Negligible

  /** The RGB values the deck uses for each class. */
  function Rgb(c: Color): int {
    match c
    case Urgent => 6711039
    case High => 51455
    case Acceptable => 5296274
    case Facultative => 9881640
    case Negligible => 12632256
  }

  /** The five colours are distinct, so a cell's colour tells its class. */
  lemma RgbDistinct(c1: Color, c2: Color)
    requires c1 != c2
    ensures Rgb(c1) != Rgb(c2)
  {
  }

  // Labels recognised for the fill colour (both languages, plus the
  // "Priority"/"Prioritaire" and "Arbitration"/"Arbitrage" aliases).
  const UrgentFillLabels: set<string> := {"Urgente", "Urgent", "Priority", "Prioritaire"}
  const HighFillLabels: set<string> := {"Forte", "High", "Arbitration", "Arbitrage"}
  const FacultativeFillLabels: set<string> := {"Facultatif", "Optional"}
  const AcceptableFillLabels: set<string> := {"Acceptable"}
  const NegligibleFillLabels: set<string> := {"Mineure", "Negligible"}

  // Labels recognised for the font colour: three classes only, and the
  // facultative one is spelled "Facultative", not "Facultatif".
  const UrgentFontLabels: set<string> := {"Urgente", "Urgent"}
  const HighFontLabels: set<string> := {"Forte", "High"}
  const FacultativeFontLabels: set<string> := {"Facultative", "Optional"}

  predicate Labelled(v: Option<string>, labels: set<string>) {
    v.Some? && v.value in labels
  }

  /** Reference classification for the fill colour, by label set. */
  function FillClass(v: Option<string>): Option<Color> {
    if Labelled(v, UrgentFillLabels) then Some(Urgent)
    else if Labelled(v, HighFillLabels) then Some(High)
    else if Labelled(v, FacultativeFillLabels) then Some(Facultative)
    else if Labelled(v, AcceptableFillLabels) then Some(Acceptable)
    else if Labelled(v, NegligibleFillLabels) then Some(Negligible)
    else None
  }

  /** Reference classification for the font colour, by label set. */
  function FontClass(v: Option<string>): Option<Color> {
    if Labelled(v, UrgentFontLabels) then Some(Urgent)
    else if Labelled(v, HighFontLabels) then Some(High)
    else if Labelled(v, FacultativeFontLabels) then Some(Facultative)
    else None
  }

  /** A deck table cell: its text and the styling the writers touch. */
  datatype TableCell = TableCell(text: string, fill: int, bold: bool, fontColor: int)

  /** `set_color_cell`: the source's chain of comparisons. A recognised label
      sets the fill to its class colour; any other value leaves the cell as it was. */
  function SetColorCell(v: Option<string>, cell: TableCell): (cell': TableCell)
    ensures FillClass(v) == None ==> cell' == cell
    ensures FillClass(v).Some? ==> cell' == cell.(fill := Rgb(FillClass(v).value))
  {
    if v == Some("Urgente") || v == Some("Urgent") || v == Some("Priority") || v == Some("Prioritaire") then
      cell.(fill := 6711039)
    else if v == Some("Forte") || v == Some("High") || v == Some("Arbitration") || v == Some("Arbitrage") then
      cell.(fill := 51455)
    else if v == Some("Facultatif") || v == Some("Optional") then
      cell.(fill := 9881640)
    else if v == Some("Acceptable") then
      cell.(fill := 5296274)
    else if v == Some("Mineure") || v == Some("Negligible") then
      cell.(fill := 12632256)
    else
      cell
  }

  /** `set_font_cell`: always bold; three independent `if`s set the text colour. */
  function SetFontCell(v: Option<string>, cell: TableCell): (cell': TableCell)
    ensures cell'.bold && cell'.text == cell.text && cell'.fill == cell.fill
    ensures cell'.fontColor == match FontClass(v) case None => cell.fontColor case Some(k) => Rgb(k)
  {
    var c0 := cell.(bold := true);
    var c1 := if v == Some("Urgente") || v == Some("Urgent") then c0.(fontColor := 6711039) else c0;
    var c2 := if v == Some("Forte") || v == Some("High") then c1.(fontColor := 51455) else c1;
    if v == Some("Facultative") || v == Some("Optional") then c2.(fontColor := 9881640) else c2
  }

  /** Where the font table gives a colour, it is the fill colour of the same
      label, except for "Facultative", which has no fill class. */
  lemma FontColourAgreesWithFill(v: Option<string>)
    requires FontClass(v).Some? && v != Some("Facultative")
    ensures FillClass(v) == FontClass(v)
  {
  }

  /** The font table never yields the acceptable or negligible colour. */
  lemma FontCoversThreeClasses(v: Option<string>)
    ensures FontClass(v) != Some(Acceptable) && FontClass(v) != Some(Negligible)
  {
  }

  /** Labels the two tables treat differently. */
  lemma TaxonomyAsymmetries()
    ensures FillClass(Some("Facultatif")) == Some(Facultative) && FontClass(Some("Facultatif")) == None
    ensures FillClass(Some("Facultative")) == None && FontClass(Some("Facultative")) == Some(Facultative)
    ensures FillClass(Some("Priority")) == Some(Urgent) && FontClass(Some("Priority")) == None
    ensures FillClass(Some("Arbitrage")) == Some(High) && FontClass(Some("Arbitrage")) == None
  {
  }
}

=== FILE: WorkbookWriter.dfy ===
/** The workbook writer: clears and rewrites the three synthesis sheets
    (action plan, implemented measures, risk analysis) from the model. */
module WorkbookWriter {
  import opened Wrappers
  import opened Sheets
  import opened Entities

  /** `clean_excel_column`: empties the column from `row` down to, but not
      including, the first empty cell; every other cell is unchanged. */
  method CleanColumn(ws: Sheet, row: int, col: int) returns (ws': Sheet)
    ensures forall r, c :: Get(ws', r, c) == if c == col && InRun(ws, row, col, r) then None else Get(ws, r, c)
  {
    ghost var bound := RowBound(ws);
    ws' := ws;
    var index := 0;
    while Get(ws', row + index, col) != None
      invariant 0 <= index
      invariant forall i :: row <= i < row + index ==> Get(ws, i, col) != None
      invariant forall r, c :: Get(ws', r, c) == if c == col && row <= r < row + index then None else Get(ws, r, c)
      decreases bound - (row + index)
    {
      ws' := Put(ws', row + index, col, None);
      index := index + 1;
    }
    forall r | true
      ensures InRun(ws, row, col, r) <==> row <= r < row + index
    {
      if r >= row + index {
        assert Get(ws, row + index, col) == None;
      }
    }
  }

  /** The cells `clean_excel_table` empties: in a listed column, the run of
      non-empty cells from the start row. */
  ghost function Cleaned(ws: Sheet, row: int, cols: seq<int>, r: int, c: int): Option<string> {
    if c in cols && InRun(ws, row, c, r) then None else Get(ws, r, c)
  }

  /** `clean_excel_table`: cleans each listed column from the same start row;
      columns not listed are untouched. */
  method CleanTable(ws: Sheet, row: int, cols: seq<int>) returns (ws': Sheet)
    ensures forall r, c :: Get(ws', r, c) == Cleaned(ws, row, cols, r, c)
  {
    ws' := ws;
    var k := 0;
    while k < |cols|
      invariant k <= |cols|
      invariant forall r, c :: Get(ws', r, c) == Cleaned(ws, row, cols[..k], r, c)
    {
      var col := cols[k];
      var next := CleanColumn(ws', row, col);
      if col in cols[..k] {
        assert Get(ws', row, col) == None;
        assert forall r :: !InRun(ws', row, col, r);
      } else {
        assert forall i :: Get(ws', i, col) == Get(ws, i, col);
        assert forall r :: InRun(ws', row, col, r) <==> InRun(ws, row, col, r);
      }
      assert cols[..k + 1] == cols[..k] + [col];
      ws' := next;
      k := k + 1;
    }
    assert cols[..k] == cols;
  }

  /** Writes one row of values into the listed columns of one sheet row. */
  method WriteRow(ws: Sheet, row: int, cols: seq<int>, values: seq<Option<string>>) returns (ws': Sheet)
    requires |values| == |cols|
    requires forall i, j :: 0 <= i < j < |cols| ==> cols[i] != cols[j]
    ensures forall j :: 0 <= j < |cols| ==> Get(ws', row, cols[j]) == values[j]
    ensures forall r, c :: (r != row || c !in cols) ==> Get(ws', r, c) == Get(ws, r, c)
  {
    ws' := ws;
    var j := 0;
    while j < |cols|
      invariant j <= |cols|
      invariant forall j' :: 0 <= j' < j ==> Get(ws', row, cols[j']) == values[j']
      invariant forall r, c :: (r != row || c !in cols[..j]) ==> Get(ws', r, c) == Get(ws, r, c)
    {
      ws' := Put(ws', row, cols[j], values[j]);
      assert cols[..j + 1] == cols[..j] + [cols[j]];
      j := j + 1;
    }
    assert cols[..j] == cols;
  }

  /** Clears the listed columns from `row`, then writes `rows[i]` into sheet
      row `row + i`. Below the written rows, a listed column keeps only what
      lay past the first empty cell of its old run. */
  method WriteTable(ws: Sheet, row: int, cols: seq<int>, rows: seq<seq<Option<string>>>) returns (ws': Sheet)
    requires forall i :: 0 <= i < |rows| ==> |rows[i]| == |cols|
    requires forall i, j :: 0 <= i < j < |cols| ==> cols[i] != cols[j]
    ensures forall i, j :: 0 <= i < |rows| && 0 <= j < |cols| ==> Get(ws', row + i, cols[j]) == rows[i][j]
    ensures forall r, c :: !(c in cols && row <= r < row + |rows|) ==> Get(ws', r, c) == Cleaned(ws, row, cols, r, c)
  {
    ws' := CleanTable(ws, row, cols);
    var i := 0;
    while i < |rows|
      invariant i <= |rows|
      invariant forall i', j :: 0 <= i' < i && 0 <= j < |cols| ==> Get(ws', row + i', cols[j]) == rows[i'][j]
      invariant forall r, c :: !(c in cols && row <= r < row + i) ==> Get(ws', r, c) == Cleaned(ws, row, cols, r, c)
    {
      ws' := WriteRow(ws', row + i, cols, rows[i]);
      i := i + 1;
    }
  }

  /** The three synthesis sheets the writer rewrites. */
  datatype SynthesisSheets = SynthesisSheets(actionPlan: Sheet, measures: Sheet, riskAnalysis: Sheet)

  function Priority(e: Element): Option<string>
    requires e.detail.Recommendation?
  {
    e.detail.priority
  }

  function RecommendationRow(e: Element): seq<Option<string>>
    requires e.detail.Recommendation?
  {
    [Some(e.id), Some(AssociatedRiskString(e.risks)), e.description, Priority(e)]
  }

  function MeasureRow(e: Element): seq<Option<string>> {
    [Some(e.id), Some(AssociatedRiskString(e.risks)), e.description]
  }

  function RiskRow(risk: Risk, recos: seq<Element>, measures: seq<Element>): seq<Option<string>> {
    [Some(risk.id), risk.theme, risk.description, Some(AssociatedDescriptions(risk.id, measures)),
     risk.initialImpact, risk.initialPotentiality, Some(AssociatedDescriptions(risk.id, recos)),
     risk.residualImpact, risk.residualPotentiality]
  }

  const RecommendationColumns: seq<int> := [2, 3, 4, 5]
  const MeasureColumns: seq<int> := [2, 3, 4]
  const RiskColumns: seq<int> := [2, 3, 4, 5, 6, 7, 9, 10, 11]

  /** The action-plan sheet after the write: recommendation i in row 5 + i,
      columns 2 to 5 (id, linked risk ids, description, priority); below the
      list the old run is cleared; other columns untouched. */
  ghost predicate ActionPlanLayout(before: Sheet, after: Sheet, recos: seq<Element>)
    requires forall i :: 0 <= i < |recos| ==> recos[i].detail.Recommendation?
  {
    && (forall i :: 0 <= i < |recos| ==>
      && Get(after, 5 + i, 2) == Some(recos[i].id)
      && Get(after, 5 + i, 3) == Some(AssociatedRiskString(recos[i].risks))
      && Get(after, 5 + i, 4) == recos[i].description
      && Get(after, 5 + i, 5) == Priority(recos[i]))
    && (forall r, c :: c in RecommendationColumns && r >= 5 + |recos| ==>
      Get(after, r, c) == if InRun(before, 5, c, r) then None else Get(before, r, c))
    && (forall r, c :: c !in RecommendationColumns ==> Get(after, r, c) == Get(before, r, c))
    && (forall r, c :: r < 5 ==> Get(after, r, c) == Get(before, r, c))
  }

  /** The measures sheet after the write: measure i in row 5 + i, columns 2 to 4. */
  ghost predicate MeasuresLayout(before: Sheet, after: Sheet, measures: seq<Element>) {
    && (forall i :: 0 <= i < |measures| ==>
      && Get(after, 5 + i, 2) == Some(measures[i].id)
      && Get(after, 5 + i, 3) == Some(AssociatedRiskString(measures[i].risks))
      && Get(after, 5 + i, 4) == measures[i].description)
    && (forall r, c :: c in MeasureColumns && r >= 5 + |measures| ==>
      Get(after, r, c) == if InRun(before, 5, c, r) then None else Get(before, r, c))
    && (forall r, c :: c !in MeasureColumns ==> Get(after, r, c) == Get(before, r, c))
    && (forall r, c :: r < 5 ==> Get(after, r, c) == Get(before, r, c))
  }

  /** Risk-analysis row `row` shows `risk`: id, theme, description, linked
      measures, initial impact and potentiality, linked recommendations,
      residual impact and potentiality. */
  ghost predicate RiskRowWritten(ws: Sheet, row: int, risk: Risk, recos: seq<Element>, measures: seq<Element>) {
    && Get(ws, row, 2) == Some(risk.id)
    && Get(ws, row, 3) == risk.theme
    && Get(ws, row, 4) == risk.description
    && Get(ws, row, 5) == Some(AssociatedDescriptions(risk.id, measures))
    && Get(ws, row, 6) == risk.initialImpact
    && Get(ws, row, 7) == risk.initialPotentiality
    && Get(ws, row, 9) == Some(AssociatedDescriptions(risk.id, recos))
    && Get(ws, row, 10) == risk.residualImpact
    && Get(ws, row, 11) == risk.residualPotentiality
  }

  lemma RiskRowCells(ws: Sheet, row: int, values: seq<Option<string>>, risk: Risk, recos: seq<Element>, measures: seq<Element>)
    requires values == RiskRow(risk, recos, measures)
    requires forall j :: 0 <= j < |RiskColumns| ==> Get(ws, row, RiskColumns[j]) == values[j]
    ensures RiskRowWritten(ws, row, risk, recos, measures)
  {
    assert Get(ws, row, RiskColumns[0]) == values[0];
    assert Get(ws, row, RiskColumns[1]) == values[1];
    assert Get(ws, row, RiskColumns[2]) == values[2];
    assert Get(ws, row, RiskColumns[3]) == values[3];
    assert Get(ws, row, RiskColumns[4]) == values[4];
    assert Get(ws, row, RiskColumns[5]) == values[5];
    assert Get(ws, row, RiskColumns[6]) == values[6];
    assert Get(ws, row, RiskColumns[7]) == values[7];
    assert Get(ws, row, RiskColumns[8]) == values[8];
  }

  /** No column of the risk-analysis layout is written twice. */
  lemma RiskColumnsDistinct()
    ensures forall i, j :: 0 <= i < j < |RiskColumns| ==> RiskColumns[i] != RiskColumns[j]
  {
    assert forall i :: 0 <= i < |RiskColumns| ==> RiskColumns[i] == if i < 6 then i + 2 else i + 3;
  }

  /** The risk-analysis sheet after the write: risk i in row 7 + i, columns
      2 to 7 and 9 to 11; the two text blocks list the linked measures (column 5)
      and recommendations (column 9). Column 8 is never touched. */
  ghost predicate RiskAnalysisLayout(before: Sheet, after: Sheet, risks: seq<Risk>, recos: seq<Element>, measures: seq<Element>) {
    && (forall i :: 0 <= i < |risks| ==> RiskRowWritten(after, 7 + i, risks[i], recos, measures))
    && (forall r, c :: c in RiskColumns && r >= 7 + |risks| ==>
      Get(after, r, c) == if InRun(before, 7, c, r) then None else Get(before, r, c))
    && (forall r, c :: c !in RiskColumns ==> Get(after, r, c) == Get(before, r, c))
    && (forall r, c :: r < 7 ==> Get(after, r, c) == Get(before, r, c))
  }

  /** Every written row of the risk-analysis table shows its risk. */
  lemma RiskRowsShown(ws: Sheet, risks: seq<Risk>, recos: seq<Element>, measures: seq<Element>, rows: seq<seq<Option<string>>>)
    requires |rows| == |risks|
    requires forall i :: 0 <= i < |rows| ==> rows[i] == RiskRow(risks[i], recos, measures)
    requires forall i :: 0 <= i < |rows| ==> |rows[i]| == |RiskColumns|
    requires forall i, j :: 0 <= i < |rows| && 0 <= j < |RiskColumns| ==> Get(ws, 7 + i, RiskColumns[j]) == rows[i][j]
    ensures forall i :: 0 <= i < |risks| ==> RiskRowWritten(ws, 7 + i, risks[i], recos, measures)
  {
    forall i | 0 <= i < |risks|
      ensures RiskRowWritten(ws, 7 + i, risks[i], recos, measures)
    {
      RiskRowCells(ws, 7 + i, rows[i], risks[i], recos, measures);
    }
  }

  /** Below the written risk rows the old runs are cleared; the other columns,
      column 8 among them, are untouched. */
  lemma RiskFrame(before: Sheet, after: Sheet, n: nat)
    requires forall r, c :: !(c in RiskColumns && 7 <= r < 7 + n) ==> Get(after, r, c) == Cleaned(before, 7, RiskColumns, r, c)
    ensures forall r, c :: c in RiskColumns && r >= 7 + n ==>
      Get(after, r, c) == if InRun(before, 7, c, r) then None else Get(before, r, c)
    ensures forall r, c :: c !in RiskColumns ==> Get(after, r, c) == Get(before, r, c)
    ensures forall r :: Get(after, r, 8) == Get(before, r, 8)
    ensures forall r, c :: r < 7 ==> Get(after, r, c) == Get(before, r, c)
  {
    assert 8 !in RiskColumns;
  }

  /** The recommendations block of `update_excel_file`: clears columns 2 to 5
      from row 5, then writes one recommendation per row. */
  method WriteActionPlan(ws: Sheet, recos: seq<Element>) returns (ws': Sheet)
    requires forall i :: 0 <= i < |recos| ==> recos[i].detail.Recommendation?
    ensures ActionPlanLayout(ws, ws', recos)
  {
    var rows := seq(|recos|, i requires 0 <= i < |recos| => RecommendationRow(recos[i]));
    ws' := WriteTable(ws, 5, RecommendationColumns, rows);
    forall i | 0 <= i < |recos|
      ensures Get(ws', 5 + i, 2) == Some(recos[i].id) && Get(ws', 5 + i, 3) == Some(AssociatedRiskString(recos[i].risks))
      ensures Get(ws', 5 + i, 4) == recos[i].description && Get(ws', 5 + i, 5) == Priority(recos[i])
    {
      assert Get(ws', 5 + i, RecommendationColumns[0]) == rows[i][0];
      assert Get(ws', 5 + i, RecommendationColumns[1]) == rows[i][1];
      assert Get(ws', 5 + i, RecommendationColumns[2]) == rows[i][2];
      assert Get(ws', 5 + i, RecommendationColumns[3]) == rows[i][3];
    }
  }

  /** The security-measures block of `update_excel_file`: clears columns 2 to 4
      from row 5, then writes one measure per row. */
  method WriteMeasures(ws: Sheet, measures: seq<Element>) returns (ws': Sheet)
    ensures MeasuresLayout(ws, ws', measures)
  {
    var rows := seq(|measures|, i requires 0 <= i < |measures| => MeasureRow(measures[i]));
    ws' := WriteTable(ws, 5, MeasureColumns, rows);
    forall i | 0 <= i < |measures|
      ensures Get(ws', 5 + i, 2) == Some(measures[i].id)
      ensures Get(ws', 5 + i, 3) == Some(AssociatedRiskString(measures[i].risks))
      ensures Get(ws', 5 + i, 4) == measures[i].description
    {
      assert Get(ws', 5 + i, MeasureColumns[0]) == rows[i][0];
      assert Get(ws', 5 + i, MeasureColumns[1]) == rows[i][1];
      assert Get(ws', 5 + i, MeasureColumns[2]) == rows[i][2];
    }
  }

  /** The risks block of `update_excel_file`: clears the nine risk columns from
      row 7, then writes one risk per row; column 8 is left alone. */
  method WriteRiskAnalysis(ws: Sheet, risks: seq<Risk>, recos: seq<Element>, measures: seq<Element>) returns (ws': Sheet)
    ensures RiskAnalysisLayout(ws, ws', risks, recos, measures)
    ensures forall r :: Get(ws', r, 8) == Get(ws, r, 8)
  {
    var rows := seq(|risks|, i requires 0 <= i < |risks| => RiskRow(risks[i], recos, measures));
    RiskColumnsDistinct();
    ws' := WriteTable(ws, 7, RiskColumns, rows);
    RiskRowsShown(ws', risks, recos, measures, rows);
    RiskFrame(ws, ws', |risks|);
  }

  /** `update_excel_file`: rewrites the three synthesis sheets from the model,
      each entity list in its own order. */
  method UpdateExcelFile(sheets: SynthesisSheets, recos: seq<Element>, measures: seq<Element>, risks: seq<Risk>)
    returns (sheets': SynthesisSheets)
    requires forall i :: 0 <= i < |recos| ==> recos[i].detail.Recommendation?
    ensures ActionPlanLayout(sheets.actionPlan, sheets'.actionPlan, recos)
    ensures MeasuresLayout(sheets.measures, sheets'.measures, measures)
    ensures RiskAnalysisLayout(sheets.riskAnalysis, sheets'.riskAnalysis, risks, recos, measures)
    ensures forall r :: Get(sheets'.riskAnalysis, r, 8) == Get(sheets.riskAnalysis, r, 8)
  {
    var plan := WriteActionPlan(sheets.actionPlan, recos);
    var measureSheet := WriteMeasures(sheets.measures, measures);
    var riskSheet := WriteRiskAnalysis(sheets.riskAnalysis, risks, recos, measures);
    sheets' := SynthesisSheets(plan, measureSheet, riskSheet);
  }
}

=== FILE: Wrappers.dfy ===
/** The optional value shared by the other modules. */
module Wrappers {

  /** A value that may be absent; used for spreadsheet cells, where `None`
      stands for an empty cell (the host returns Python's `None`). */
  datatype Option<+T> = None | Some(value: T)
}
